=== FILE: README.md ===
# Game of Life and bouncing balls, modelled in Dafny

The repository holds two small pygame simulations. This project models the
deterministic logic inside them:

- `game_of_life_sim.py`: Conway's Game of Life on a bounded 80 by 80 board.
  The model covers the generation step (rule B3/S23, a neighbour count clamped
  at the borders, a synchronous update from a copy), painting cells with the
  mouse, and the pause / single-step keys of the frame loop.
- `bouncing_ball_sim.py`: balls falling under gravity in an 800 by 600 arena.
  The model covers ball construction, the per-tick integrator, wall handling
  with restitution and floor settling, the hit-counting collision pass, the
  main-loop tick, and the creation of the initial balls.

Files, one module each:

- `life_grid.dfy` (`LifeGrid`): the board `seq<seq<int>>`, indexed `g[x][y]`
  with the column first as in the program. It also defines the program's
  clamped-block neighbour count (`NeighbourCount`). `Neighbours8` is an
  independent eight-cell reference count, and the two are proved equal.
- `life_step.dfy` (`LifeStep`): the pure step `Step`, the B3/S23 rule stated
  against the reference count, and the program's loop in two scan orders. Both
  scan orders are proved equal to `Step`.
- `life_control.dfy` (`LifeControl`): mouse painting, key events, and one frame
  of the main loop.
- `ball_physics.dfy` (`BallPhysics`): `Vec2`, `Ball`, `World` (arena size and
  physics constants, which the program keeps as globals), `Update` and
  `HandleWalls`.
- `ball_collisions.dfy` (`BallCollisions`): the overlap test, the pair scan of
  the collision pass, and one tick.
- `ball_spawn.dfy` (`BallSpawn`): creation of the initial balls from drawn
  random values.

Python floats are modelled as `real`. Python's integer division on the
non-negative pixel coordinates is Dafny's `/` on `nat`. The program tests
`hypot(dx, dy) < r1 + r2`; the model tests `dx*dx + dy*dy < (r1 + r2)^2`
instead. For positive radii the two tests are equivalent.

Three points where the code decides what the behaviour is:

- Overlap with a wall is tested strictly (`x - radius < 0`). A ball exactly
  touching a wall is therefore not reflected in that pass, whatever its
  velocity (`TouchingWallIsNotReflected`).
- The walls, and the floor settling test, act on the velocity after gravity
  and damping (`UpdateAtWalls`, `SettleTestSeesDampedSpeed`).
  With the program's constants this means a ball that starts a tick inside
  the arena never settles: crossing the floor line takes a downward speed,
  which after gravity and damping exceeds 0.495 (`NoSettleFromInside`). The
  settle branch is reached only from a start state past the floor line.
- The floor settling test looks at the vertical speed before reflection
  (`abs(vy) < 0.1`), not at the reflected speed.

The program has no hit threshold, no respawn of balls, no overlap separation
and no drag selection. None of these is modelled.

## Model

| member | source | states |
|---|---|---|
| LifeGrid.NeighbourCountIsMoore | game_of_life_sim.py:49-50 | The clamped-block sum minus the cell equals the sum of the eight surrounding cells, with cells outside the board absent (no wrap-around). |
| LifeGrid.NeighbourCountBounds | game_of_life_sim.py:47-50 | On a 0/1 board the neighbour count lies in 0..8. It is at most 3 at a corner and at most 5 on an edge. |
| LifeGrid.NoNeighboursOnDeadBoard | game_of_life_sim.py:49-50 | On an all-zero board every cell has neighbour count 0. |
| LifeStep.Step | game_of_life_sim.py:44-55 | The next generation has the board's width and height, and a 0/1 board stays 0/1. |
| LifeStep.StepFollowsB3S23 | game_of_life_sim.py:49-54 | Rule B3/S23 against the eight-neighbour count. A live cell with fewer than 2 or more than 3 neighbours dies; with 2 or 3 it survives. A dead cell with exactly 3 is born; otherwise it stays dead. Any other value is kept. |
| LifeStep.DeadBoardIsFixed | game_of_life_sim.py:46-55 | The all-dead board is a fixed point of the step. |
| LifeStep.StepColumnMajor | game_of_life_sim.py:44-55 | The program's loop (columns outer, rows inner, reading the old board, writing a copy) yields exactly the synchronous generation `Step`. |
| LifeStep.StepRowMajor | game_of_life_sim.py:46-55 | Scanning rows outer and columns inner yields the same generation, so the result does not depend on the scan order. |
| LifeControl.DivIsCell | game_of_life_sim.py:63 | The cell index `p // cell_size` is the one cell whose pixel strip contains `p`. |
| LifeControl.Paint | game_of_life_sim.py:58-68 | With no button held the board is unchanged. With a button held, painting succeeds exactly when the pointer lies on the board. It then sets the cell under the pointer to 1 (left button, which takes priority) or 0 (right button) and leaves every other cell alone. |
| LifeControl.PaintIdempotent | game_of_life_sim.py:61-68 | Painting twice with the same buttons and pointer equals painting once. |
| LifeControl.HandleEvent | game_of_life_sim.py:75-82 | The pause flag changes exactly on space. The loop flag is cleared exactly on quit. The board changes only on `s` while paused, and then by exactly one generation. |
| LifeControl.HandleEventsSummary | game_of_life_sim.py:75-82 | Over a frame's events the board advances by one generation per `s` press made while paused. The pause flag flips once per space press. The loop flag ends cleared exactly when a quit event occurred. |
| LifeControl.Frame | game_of_life_sim.py:73-87 | One frame fails only when a button is held with the pointer off the board. Otherwise the board keeps its width and height. |
| LifeControl.FrameSummary | game_of_life_sim.py:73-87 | For any events, buttons and pointer: the flags are those the events leave, with the pause flag flipped once per space press and the loop flag cleared by a quit. The board advances once per `s` press made while paused, is then painted, and then advances one more generation exactly when the pause flag the events left is clear. |
| LifeControl.FrameAutoStep | game_of_life_sim.py:84-87 | A frame without events or buttons advances the board by one generation exactly when not paused, and keeps both flags. |
| LifeControl.SpaceTwiceIsIdentity | game_of_life_sim.py:79-80 | Two space presses restore the state. |
| BallPhysics.NewBall | bouncing_ball_sim.py:26-31 | A new ball has hit count 0, and its position, velocity, radius and colour are the arguments. |
| BallPhysics.WallsX | bouncing_ball_sim.py:40-45 | On x at most one wall acts. A ball that fits ends clamped to `[radius, width - radius]`. Inside, the axis is unchanged; outside, `vx` becomes `-vx * elasticity`. With elasticity in [0, 1] the speed does not grow. |
| BallPhysics.WallsY | bouncing_ball_sim.py:47-55 | On y the ceiling always reflects and never settles. At the floor `vy` becomes exactly 0 when its magnitude before reflection is below 0.1, and `-vy * elasticity` otherwise. A ball that fits ends clamped to `[radius, height - radius]`, and an inside axis is unchanged. |
| BallPhysics.HandleWalls | bouncing_ball_sim.py:39-55 | A ball whose radius fits the arena ends inside it, its position clamped to `[radius, size - radius]` on each axis. An axis already inside keeps its position and velocity. On x a ball outside is reflected with the elasticity. The ceiling always reflects. At the floor the ball stops if its speed before reflection is below 0.1, and is reflected otherwise. With elasticity in [0, 1] no speed grows. Radius, colour and hit count are unchanged. |
| BallPhysics.ReflectionSlows | bouncing_ball_sim.py:42 | A reflection `-v * e` with `e` in [0, 1] is no faster than `v`. |
| BallPhysics.HandleWallsIdempotent | bouncing_ball_sim.py:39-55 | Handling the walls twice equals handling them once, for a ball that fits. |
| BallPhysics.TouchingWallIsNotReflected | bouncing_ball_sim.py:40-45 | A ball exactly touching the left or the right wall keeps its x position and x velocity in that pass, whatever that velocity is. |
| BallPhysics.Update | bouncing_ball_sim.py:33-37 | After a tick a ball that fits is inside the arena. Radius, colour and hit count are unchanged. |
| BallPhysics.UpdateAwayFromWalls | bouncing_ball_sim.py:33-37 | Away from the walls the position advances by the old velocity, and the velocity becomes `(vx * (1 - friction), (vy + gravity) * (1 - friction))`: gravity is added before damping. |
| BallPhysics.UpdateAtWalls | bouncing_ball_sim.py:33-55 | For every ball, the walls act on the moved position and the damped velocity. A ball that fits ends at `pos + vel` clamped to the arena. A wall crossed on x, or the ceiling, reflects the damped velocity. At the floor the vertical velocity is set to 0 when the damped vertical speed `(vy + gravity) * (1 - friction)` is below 0.1, and is the reflected damped speed otherwise. |
| BallPhysics.SettleTestSeesDampedSpeed | bouncing_ball_sim.py:34-55 | A ball that starts the tick 0.5 past the floor line (y = 590.5; the floor line is at 590) moving up at 0.3995 stops on the floor, at y = 590 with vertical speed 0. Its speed after gravity, 0.1005, is above the threshold; after damping, 0.099495, it is below. |
| BallPhysics.NoSettleFromInside | bouncing_ball_sim.py:33-55 | With the program's constants, a ball that starts a tick inside the arena and crosses the floor line is reflected with `-(vy + gravity) * (1 - friction) * elasticity` and never stops. Its vertical speed after the tick is below -0.47: the damped speed, above 0.495, reflected and scaled by 0.95. |
| BallPhysics.RestingBallFalls | bouncing_ball_sim.py:33-36 | With the program's constants, a ball at rest in mid-air gains vertical speed 0.495 in one tick. |
| BallCollisions.OverlapsSymmetric | bouncing_ball_sim.py:75-78 | The overlap test does not depend on the order of the two balls. |
| BallCollisions.HitsCountsPartners | bouncing_ball_sim.py:78-80 | The per-ball hit count over indices equals the size of the set of other balls overlapping it. |
| BallCollisions.NoOverlapNoHits | bouncing_ball_sim.py:71-80 | If no pair overlaps, no ball counts a hit. |
| BallCollisions.VisitPairEffect | bouncing_ball_sim.py:78-95 | Examining one pair adds a hit to both balls exactly when they overlap, and to no other ball. It changes no position, radius or colour. Only the pair's velocities can change: when the pair overlaps they become what `exchange` computes from the two balls as they are at that moment. |
| BallCollisions.CollideRow | bouncing_ball_sim.py:72-95 | Row `i` of the scan takes the pass from "rows below `i` done" to "rows up to `i` done" (`PassState`). The trace then lists exactly the pairs of those rows in strictly increasing order, and the balls are those pairs examined one after another in that order (`ApplyPairs`). The hit counts include every overlapping pair of those rows, and a ball with no overlap so far keeps its velocity. |
| BallCollisions.PassComplete | bouncing_ball_sim.py:71-80 | After every row has been scanned, the counts gathered row by row equal each ball's number of overlapping partners. When no pair overlaps, the balls come out exactly as they went in. |
| BallCollisions.HandleCollisions | bouncing_ball_sim.py:71-95 | Each ball's hit count grows by exactly the number of other balls it overlaps at the start of the pass. Positions, radii and colours are unchanged. A ball overlapping none keeps its velocity, and with no overlapping pair nothing changes. The visited pairs are exactly the `(i, j)` with `i < j`, in strictly increasing order, so each is visited once. The result is those pairs examined one after another in that order, each seeing the balls as the earlier pairs left them. |
| BallCollisions.Tick | bouncing_ball_sim.py:108-110 | One tick runs the collision pass on the moved balls `UpdateAll(w, bs)`, each ball moved by `Update`. The result is those balls with every pair `i < j` examined exactly once, in strictly increasing order, by the given `exchange` (`ApplyPairs`). Positions, radii and colours are the moved ones. Each hit count grows by the number of other moved balls it overlaps, and a ball overlapping none keeps its moved velocity. Every ball that fits ends inside the arena, and no hit count decreases. |
| BallSpawn.Spawn | bouncing_ball_sim.py:63-66 | A ball built from in-range draws has no hits, a whole-number position in `[50, width - 50] x [50, height - 50]`, a whole-number radius in [5, 15], and velocity components in [-5, 5]. |
| BallSpawn.CreateBalls | bouncing_ball_sim.py:61-68 | Exactly `n` balls are created, in order. Ball `i` is the ball `Spawn` builds from draw `i`, so it has the guarantees of `Spawn`. |
| BallSpawn.CreatedBallsInBounds | bouncing_ball_sim.py:61-68 | Every created ball fits the arena and is already inside it, so wall handling leaves it unchanged. |

## Left out

- Drawing, window set-up, event polling, mouse and key queries, and frame pacing (`draw_grid`, `draw_cells`, `Ball.draw`, `pygame.init`, `clock.tick`): these are I/O. A frame receives its events, buttons and pointer position as parameters.
- Exiting the process on quit (`sys.exit`, `pygame.quit`): the model only clears the loop flag.
- The trigonometric velocity exchange in `handle_collisions` (bouncing_ball_sim.py:81-95): `atan2`, `cos`, `sin` and `hypot` are floating-point functions. The pass takes the exchange as the parameter `exchange`, applied to the pair as it stands at that moment.
- BallCollisions.HandleCollisions: the velocities of colliding balls are whatever `exchange` returns when their pair is examined; nothing is stated about their values.
- Random generation (`np.random.choice` for the initial board, `random.randint` and `random.uniform` in `create_balls`): the drawn values are inputs, constrained to the requested ranges.
- Bit-exact float behaviour: positions, velocities and constants are exact reals, so rounding is not modelled.
- Pointer positions are non-negative (`nat`). Python's negative-index wrap-around therefore does not arise. A pointer beyond the board is the error `IndexError`.
- The colour of a ball takes no part in the physics. It is carried along only.

=== FILE: ball_collisions.dfy ===
/**
 The pairwise collision pass of the bouncing-ball simulation and one tick of
 its main loop.

 Every unordered pair `(i, j)` with `i < j` is examined once, in ascending
 order. Two balls collide when the distance between their centres is below
 the sum of their radii; both then gain one hit. The new velocities of a
 colliding pair come from a trigonometric exchange that is not modelled: it
 is the parameter `exchange`, applied to the two balls as they are at that
 moment. The pass never moves a ball, so which balls collide is decided by
 the positions at the start of the pass.
 */
module BallCollisions {
  import opened BallPhysics

  /** Centre distance below the sum of the radii, compared on squares. */
  predicate Overlaps(a: Ball, b: Ball) {
    var dx, dy, reach := a.pos.x - b.pos.x, a.pos.y - b.pos.y, a.radius + b.radius;
    dx * dx + dy * dy < reach * reach
  }

  lemma OverlapsSymmetric(a: Ball, b: Ball)
    ensures Overlaps(a, b) <==> Overlaps(b, a)
  {
    var dx, dy := a.pos.x - b.pos.x, a.pos.y - b.pos.y;
    assert (-dx) * (-dx) == dx * dx && (-dy) * (-dy) == dy * dy;
  }

  /** Overlap depends on positions and radii only. */
  lemma OverlapsOfBodies(a: Ball, b: Ball, a': Ball, b': Ball)
    requires a.pos == a'.pos && a.radius == a'.radius && b.pos == b'.pos && b.radius == b'.radius
    ensures Overlaps(a, b) == Overlaps(a', b')
  {
  }

  /** Number of balls with index in `[lo, hi)`, other than `k`, that overlap ball `k`. */
  function Hits(bs: seq<Ball>, k: int, lo: int, hi: int): nat
    requires 0 <= k < |bs| && 0 <= lo && hi <= |bs|
    decreases hi - lo
  {
    if hi <= lo then 0
    else Hits(bs, k, lo, hi - 1) + (if hi - 1 != k && Overlaps(bs[k], bs[hi - 1]) then 1 else 0)
  }

  /** The indices in `[0, hi)`, other than `k`, of the balls that overlap ball `k`. */
  function Partners(bs: seq<Ball>, k: int, hi: int): set<int>
    requires 0 <= k < |bs| && 0 <= hi <= |bs|
  {
    set j | 0 <= j < hi && j != k && Overlaps(bs[k], bs[j])
  }

  /** `Hits` counts exactly the set of other balls that overlap ball `k`. */
  lemma {:induction false} HitsCountsPartners(bs: seq<Ball>, k: int, hi: int)
    requires 0 <= k < |bs| && 0 <= hi <= |bs|
    ensures Hits(bs, k, 0, hi) == |Partners(bs, k, hi)|
    decreases hi
  {
    if hi > 0 {
      HitsCountsPartners(bs, k, hi - 1);
      var prev := Partners(bs, k, hi - 1);
      if hi - 1 != k && Overlaps(bs[k], bs[hi - 1]) {
        assert Partners(bs, k, hi) == prev + {hi - 1};
        assert hi - 1 !in prev;
      } else {
        assert Partners(bs, k, hi) == prev;
      }
    }
  }

  /** Without any overlapping pair no ball counts a hit. */
  lemma {:induction false} NoOverlapNoHits(bs: seq<Ball>, k: int, hi: int)
    requires 0 <= k < |bs| && 0 <= hi <= |bs|
    requires forall a, b :: 0 <= a < b < |bs| ==> !Overlaps(bs[a], bs[b])
    ensures Hits(bs, k, 0, hi) == 0
    decreases hi
  {
    if hi > 0 {
      NoOverlapNoHits(bs, k, hi - 1);
      OverlapsSymmetric(bs[k], bs[hi - 1]);
    }
  }

  /** Counting over `[lo, hi)` splits at any `mid` in between. */
  lemma {:induction false} HitsSplit(bs: seq<Ball>, k: int, lo: int, mid: int, hi: int)
    requires 0 <= k < |bs| && 0 <= lo <= mid <= hi <= |bs|
    ensures Hits(bs, k, lo, hi) == Hits(bs, k, lo, mid) + Hits(bs, k, mid, hi)
    decreases hi - mid
  {
    if mid < hi {
      HitsSplit(bs, k, lo, mid, hi - 1);
    }
  }

  /** The overlapping balls of `k` are those before it and those after it. */
  lemma HitsAroundSelf(bs: seq<Ball>, k: int)
    requires 0 <= k < |bs|
    ensures Hits(bs, k, 0, |bs|) == Hits(bs, k, 0, k) + Hits(bs, k, k + 1, |bs|)
  {
    HitsSplit(bs, k, 0, k, |bs|);
    HitsSplit(bs, k, k, k + 1, |bs|);
  }

  /** Lexicographic order on index pairs: the order in which the pass visits them. */
  predicate PairBefore(p: (int, int), q: (int, int)) {
    p.0 < q.0 || (p.0 == q.0 && p.1 < q.1)
  }

  /** Hits of ball `k` already counted once the rows of every `a < i` are done. */
  function CountedRows(bs: seq<Ball>, k: int, i: int): nat
    requires 0 <= k < |bs| && 0 <= i <= |bs|
  {
    if k < i then Hits(bs, k, 0, k) + Hits(bs, k, k + 1, |bs|) else Hits(bs, k, 0, i)
  }

  /**
   Hits of ball `k` already counted when the rows of every `a < i` are done
   and, in row `i`, the pairs `(i, b)` with `b < j`.
   */
  function Counted(bs: seq<Ball>, k: int, i: int, j: int): nat
    requires 0 <= k < |bs| && 0 <= i < j <= |bs|
  {
    if k < i then CountedRows(bs, k, i)
    else if k == i then Hits(bs, k, 0, i) + Hits(bs, k, i + 1, j)
    else if k < j then Hits(bs, k, 0, i + 1)
    else Hits(bs, k, 0, i)
  }

  /** Examining pair `(i, j)` counts one more hit for `i` and `j` when they overlap, none for others. */
  lemma CountedStep(bs: seq<Ball>, i: int, j: int)
    requires 0 <= i < j < |bs|
    ensures forall k :: 0 <= k < |bs| ==>
              Counted(bs, k, i, j + 1)
              == Counted(bs, k, i, j) + (if (k == i || k == j) && Overlaps(bs[i], bs[j]) then 1 else 0)
  {
    OverlapsSymmetric(bs[i], bs[j]);
  }

  /** Starting and finishing row `i` agree with the row-level count. */
  lemma CountedRowBounds(bs: seq<Ball>, i: int)
    requires 0 <= i < |bs|
    ensures forall k :: 0 <= k < |bs| ==> Counted(bs, k, i, i + 1) == CountedRows(bs, k, i)
    ensures forall k :: 0 <= k < |bs| ==> Counted(bs, k, i, |bs|) == CountedRows(bs, k, i + 1)
  {
  }

  /**
   All rows done: every ball has counted each of its overlapping partners,
   and none at all when no pair overlaps.
   */
  lemma CountedAllRows(bs: seq<Ball>)
    ensures forall k :: 0 <= k < |bs| ==> CountedRows(bs, k, |bs|) == Hits(bs, k, 0, |bs|)
    ensures (forall a, b :: 0 <= a < b < |bs| ==> !Overlaps(bs[a], bs[b])) ==>
              forall k :: 0 <= k < |bs| ==> Hits(bs, k, 0, |bs|) == 0
  {
    forall k | 0 <= k < |bs|
      ensures CountedRows(bs, k, |bs|) == Hits(bs, k, 0, |bs|)
    {
      HitsAroundSelf(bs, k);
    }
    if forall a, b :: 0 <= a < b < |bs| ==> !Overlaps(bs[a], bs[b]) {
      forall k | 0 <= k < |bs|
        ensures Hits(bs, k, 0, |bs|) == 0
      {
        NoOverlapNoHits(bs, k, |bs|);
      }
    }
  }

  /** Positions, radii and colours of `cur` are those of `bs`. */
  predicate SameBodies(bs: seq<Ball>, cur: seq<Ball>) {
    |cur| == |bs|
    && forall k :: 0 <= k < |bs| ==>
         cur[k].pos == bs[k].pos && cur[k].radius == bs[k].radius && cur[k].color == bs[k].color
  }

  /**
   Once every row has been scanned, the counts gathered row by row are the
   hit counts; in particular, with no overlapping pair the balls are as they
   were.
   */
  lemma PassComplete(bs: seq<Ball>, cur: seq<Ball>)
    requires SameBodies(bs, cur)
    requires forall k :: 0 <= k < |bs| ==> cur[k].hitCount == bs[k].hitCount + CountedRows(bs, k, |bs|)
    requires forall k :: 0 <= k < |bs| && CountedRows(bs, k, |bs|) == 0 ==> cur[k].vel == bs[k].vel
    ensures forall k :: 0 <= k < |bs| ==> cur[k].hitCount == bs[k].hitCount + Hits(bs, k, 0, |bs|)
    ensures forall k :: 0 <= k < |bs| && Hits(bs, k, 0, |bs|) == 0 ==> cur[k].vel == bs[k].vel
    ensures (forall a, b :: 0 <= a < b < |bs| ==> !Overlaps(bs[a], bs[b])) ==> cur == bs
  {
    CountedAllRows(bs);
    if forall a, b :: 0 <= a < b < |bs| ==> !Overlaps(bs[a], bs[b]) {
      assert forall k :: 0 <= k < |bs| ==> cur[k] == bs[k];
    }
  }

  /**
   Examining pair `(i, j)`: when the two balls overlap, both gain a hit and
   take the velocities `exchange` computes from them; otherwise nothing changes.
   */
  function VisitPair(cur: seq<Ball>, i: int, j: int, exchange: (Ball, Ball) -> (Vec2, Vec2)): (r: seq<Ball>)
    requires 0 <= i < j < |cur|
    ensures |r| == |cur|
  {
    if Overlaps(cur[i], cur[j]) then
      var (vi, vj) := exchange(cur[i], cur[j]);
      var c1 := cur[i := cur[i].(hitCount := cur[i].hitCount + 1, vel := vi)];
      c1[j := c1[j].(hitCount := c1[j].hitCount + 1, vel := vj)]
    else
      cur
  }

  /**
   What examining one pair does: both balls gain a hit exactly when they
   overlap, no other ball gains one, no body changes, and only the pair's
   velocities can change, to what `exchange` computes from the two balls.
   */
  lemma VisitPairEffect(cur: seq<Ball>, i: int, j: int, exchange: (Ball, Ball) -> (Vec2, Vec2))
    requires 0 <= i < j < |cur|
    ensures SameBodies(cur, VisitPair(cur, i, j, exchange))
    ensures forall k :: 0 <= k < |cur| ==>
              VisitPair(cur, i, j, exchange)[k].hitCount
              == cur[k].hitCount + (if (k == i || k == j) && Overlaps(cur[i], cur[j]) then 1 else 0)
    ensures forall k :: 0 <= k < |cur| && !((k == i || k == j) && Overlaps(cur[i], cur[j])) ==>
              VisitPair(cur, i, j, exchange)[k].vel == cur[k].vel
    ensures Overlaps(cur[i], cur[j]) ==>
              VisitPair(cur, i, j, exchange)[i].vel == exchange(cur[i], cur[j]).0
              && VisitPair(cur, i, j, exchange)[j].vel == exchange(cur[i], cur[j]).1
  {
  }

  /** Pairs whose indices name two different balls of `bs`, the smaller first. */
  predicate ValidPairs(bs: seq<Ball>, ps: seq<(int, int)>) {
    forall a :: 0 <= a < |ps| ==> 0 <= ps[a].0 < ps[a].1 < |bs|
  }

  /**
   The balls after examining the pairs `ps` one after the other, in the order
   listed, each pair seeing the balls as the pairs before it left them.
   */
  function ApplyPairs(bs: seq<Ball>, ps: seq<(int, int)>, exchange: (Ball, Ball) -> (Vec2, Vec2)): (r: seq<Ball>)
    requires ValidPairs(bs, ps)
    ensures |r| == |bs|
    decreases |ps|
  {
    if |ps| == 0 then bs
    else
      var last := ps[|ps| - 1];
      VisitPair(ApplyPairs(bs, ps[..|ps| - 1], exchange), last.0, last.1, exchange)
  }

  /** Examining one more pair continues the fold. */
  lemma ApplyPairsSnoc(bs: seq<Ball>, ps: seq<(int, int)>, i: int, j: int, exchange: (Ball, Ball) -> (Vec2, Vec2))
    requires ValidPairs(bs, ps) && 0 <= i < j < |bs|
    ensures ValidPairs(bs, ps + [(i, j)])
    ensures ApplyPairs(bs, ps + [(i, j)], exchange) == VisitPair(ApplyPairs(bs, ps, exchange), i, j, exchange)
  {
    assert (ps + [(i, j)])[..|ps|] == ps;
  }

  /** Visiting pair `(i, j)` in row `i` moves the counts from `Counted(.., j)` to `Counted(.., j + 1)`. */
  lemma VisitKeepsCounts(bs: seq<Ball>, cur: seq<Ball>, i: int, j: int, exchange: (Ball, Ball) -> (Vec2, Vec2))
    requires 0 <= i < j < |bs| && SameBodies(bs, cur)
    requires forall k :: 0 <= k < |bs| ==> cur[k].hitCount == bs[k].hitCount + Counted(bs, k, i, j)
    requires forall k :: 0 <= k < |bs| && Counted(bs, k, i, j) == 0 ==> cur[k].vel == bs[k].vel
    ensures SameBodies(bs, VisitPair(cur, i, j, exchange))
    ensures forall k :: 0 <= k < |bs| ==>
              VisitPair(cur, i, j, exchange)[k].hitCount == bs[k].hitCount + Counted(bs, k, i, j + 1)
    ensures forall k :: 0 <= k < |bs| && Counted(bs, k, i, j + 1) == 0 ==>
              VisitPair(cur, i, j, exchange)[k].vel == bs[k].vel
  {
    CountedStep(bs, i, j);
    VisitPairEffect(cur, i, j, exchange);
    OverlapsOfBodies(cur[i], cur[j], bs[i], bs[j]);
  }

  /** Recording pair `(i, j)` keeps the trace complete and strictly increasing. */
  lemma RecordPair(visited: seq<(int, int)>, i: int, j: int, n: int)
    requires 0 <= i < j < n
    requires forall p :: p in visited <==> (0 <= p.0 < i && p.0 < p.1 < n) || (p.0 == i && i < p.1 < j)
    requires forall a, b :: 0 <= a < b < |visited| ==> PairBefore(visited[a], visited[b])
    requires forall a :: 0 <= a < |visited| ==> PairBefore(visited[a], (i, j))
    ensures forall p :: p in visited + [(i, j)] <==>
              (0 <= p.0 < i && p.0 < p.1 < n) || (p.0 == i && i < p.1 < j + 1)
    ensures forall a, b :: 0 <= a < b < |visited + [(i, j)]| ==>
              PairBefore((visited + [(i, j)])[a], (visited + [(i, j)])[b])
    ensures forall a :: 0 <= a < |visited + [(i, j)]| ==> PairBefore((visited + [(i, j)])[a], (i, j + 1))
  {
    var v := visited + [(i, j)];
    forall p
      ensures p in v <==> (0 <= p.0 < i && p.0 < p.1 < n) || (p.0 == i && i < p.1 < j + 1)
    {
      assert p in v <==> p in visited || p == (i, j);
    }
  }

  /**
   The state of the pass once the rows of every `a < i` are done: bodies are
   unchanged, each ball has counted its overlaps with those rows, a ball that
   has counted none keeps its velocity, `visited` lists exactly the pairs of
   those rows in increasing order, and the balls are those pairs applied in
   that order.
   */
  ghost predicate PassState(bs: seq<Ball>, cur: seq<Ball>, visited: seq<(int, int)>, i: int,
                      exchange: (Ball, Ball) -> (Vec2, Vec2))
    requires 0 <= i <= |bs|
  {
    && SameBodies(bs, cur)
    && (forall k :: 0 <= k < |bs| ==> cur[k].hitCount == bs[k].hitCount + CountedRows(bs, k, i))
    && (forall k :: 0 <= k < |bs| && CountedRows(bs, k, i) == 0 ==> cur[k].vel == bs[k].vel)
    && (forall p :: p in visited <==> 0 <= p.0 < i && p.0 < p.1 < |bs|)
    && (forall a, b :: 0 <= a < b < |visited| ==> PairBefore(visited[a], visited[b]))
    && (forall a :: 0 <= a < |visited| ==> visited[a].0 < i)
    && ValidPairs(bs, visited) && cur == ApplyPairs(bs, visited, exchange)
  }

  /** The state of the pass inside row `i`, once the pairs `(i, b)` with `b < j` are done. */
  ghost predicate RowState(bs: seq<Ball>, cur: seq<Ball>, visited: seq<(int, int)>, i: int, j: int,
                     exchange: (Ball, Ball) -> (Vec2, Vec2))
    requires 0 <= i < j <= |bs|
  {
    && SameBodies(bs, cur)
    && (forall k :: 0 <= k < |bs| ==> cur[k].hitCount == bs[k].hitCount + Counted(bs, k, i, j))
    && (forall k :: 0 <= k < |bs| && Counted(bs, k, i, j) == 0 ==> cur[k].vel == bs[k].vel)
    && (forall p :: p in visited <==> (0 <= p.0 < i && p.0 < p.1 < |bs|) || (p.0 == i && i < p.1 < j))
    && (forall a, b :: 0 <= a < b < |visited| ==> PairBefore(visited[a], visited[b]))
    && (forall a :: 0 <= a < |visited| ==> PairBefore(visited[a], (i, j)))
    && ValidPairs(bs, visited) && cur == ApplyPairs(bs, visited, exchange)
  }

  /** Before any pair is examined the pass is in its initial state. */
  lemma PassStart(bs: seq<Ball>, exchange: (Ball, Ball) -> (Vec2, Vec2))
    ensures PassState(bs, bs, [], 0, exchange)
  {
  }

  /** Entering row `i`. */
  lemma RowStart(bs: seq<Ball>, cur: seq<Ball>, visited: seq<(int, int)>, i: int,
                 exchange: (Ball, Ball) -> (Vec2, Vec2))
    requires 0 <= i < |bs| && PassState(bs, cur, visited, i, exchange)
    ensures RowState(bs, cur, visited, i, i + 1, exchange)
  {
    CountedRowBounds(bs, i);
  }

  /** Examining pair `(i, j)` and recording it advances the row by one. */
  lemma RowStep(bs: seq<Ball>, cur: seq<Ball>, visited: seq<(int, int)>, i: int, j: int,
                exchange: (Ball, Ball) -> (Vec2, Vec2))
    requires 0 <= i < j < |bs| && RowState(bs, cur, visited, i, j, exchange)
    ensures RowState(bs, VisitPair(cur, i, j, exchange), visited + [(i, j)], i, j + 1, exchange)
  {
    VisitKeepsCounts(bs, cur, i, j, exchange);
    RecordPair(visited, i, j, |bs|);
    ApplyPairsSnoc(bs, visited, i, j, exchange);
  }

  /** Leaving row `i` once every pair `(i, j)` has been examined. */
  lemma RowEnd(bs: seq<Ball>, cur: seq<Ball>, visited: seq<(int, int)>, i: int, j: int,
               exchange: (Ball, Ball) -> (Vec2, Vec2))
    requires 0 <= i < j == |bs| && RowState(bs, cur, visited, i, j, exchange)
    ensures PassState(bs, cur, visited, i + 1, exchange)
  {
    CountedRowBounds(bs, i);
    forall a | 0 <= a < |visited|
      ensures visited[a].0 < i + 1
    {
      assert PairBefore(visited[a], (i, |bs|));
    }
  }

  /** With every row done, the pass has done what `HandleCollisions` promises. */
  lemma PassDone(bs: seq<Ball>, cur: seq<Ball>, visited: seq<(int, int)>, i: int,
                 exchange: (Ball, Ball) -> (Vec2, Vec2))
    requires i == |bs| && PassState(bs, cur, visited, i, exchange)
    ensures SameBodies(bs, cur)
    ensures forall k :: 0 <= k < |bs| ==> cur[k].hitCount == bs[k].hitCount + Hits(bs, k, 0, |bs|)
    ensures forall k :: 0 <= k < |bs| && Hits(bs, k, 0, |bs|) == 0 ==> cur[k].vel == bs[k].vel
    ensures forall p :: p in visited <==> 0 <= p.0 < p.1 < |bs|
    ensures forall a, b :: 0 <= a < b < |visited| ==> PairBefore(visited[a], visited[b])
    ensures (forall a, b :: 0 <= a < b < |bs| ==> !Overlaps(bs[a], bs[b])) ==> cur == bs
    ensures ValidPairs(bs, visited) && cur == ApplyPairs(bs, visited, exchange)
  {
    PassComplete(bs, cur);
  }

  /**
   Row `i` of the pass: examines `(i, j)` for every `j > i` in ascending
   order, counting a hit for both balls of each overlapping pair and giving
   them the velocities `exchange` computes; afterwards the rows up to `i`
   are done.
   */
  method CollideRow(bs: seq<Ball>, cur: seq<Ball>, visited: seq<(int, int)>, i: int,
                    exchange: (Ball, Ball) -> (Vec2, Vec2))
    returns (cur': seq<Ball>, visited': seq<(int, int)>)
    requires 0 <= i < |bs| && PassState(bs, cur, visited, i, exchange)
    ensures PassState(bs, cur', visited', i + 1, exchange)
  {
    var n := |bs|;
    RowStart(bs, cur, visited, i, exchange);
    cur', visited' := cur, visited;
    var j := i + 1;
    while j < n
      invariant i + 1 <= j <= n && RowState(bs, cur', visited', i, j, exchange)
    {
      RowStep(bs, cur', visited', i, j, exchange);
      cur', visited' := VisitPair(cur', i, j, exchange), visited' + [(i, j)];
      j := j + 1;
    }
    RowEnd(bs, cur', visited', i, j, exchange);
  }

  /**
   The collision pass. Each ball's hit count grows by exactly the number of
   other balls it overlaps at the start of the pass; positions, radii and
   colours do not change; a ball that overlaps no other keeps its velocity.
   `visited` lists the pairs examined: every `(i, j)` with `i < j` occurs,
   nothing else does, and the list is strictly increasing, so no pair is
   examined twice. The result is exactly the balls after examining the pairs
   of `visited` in that order.
   */
  method HandleCollisions(bs: seq<Ball>, exchange: (Ball, Ball) -> (Vec2, Vec2))
    returns (r: seq<Ball>, visited: seq<(int, int)>)
    ensures SameBodies(bs, r)
    ensures forall k :: 0 <= k < |bs| ==> r[k].hitCount == bs[k].hitCount + Hits(bs, k, 0, |bs|)
    ensures forall k :: 0 <= k < |bs| && Hits(bs, k, 0, |bs|) == 0 ==> r[k].vel == bs[k].vel
    ensures forall p :: p in visited <==> 0 <= p.0 < p.1 < |bs|
    ensures forall a, b :: 0 <= a < b < |visited| ==> PairBefore(visited[a], visited[b])
    ensures (forall a, b :: 0 <= a < b < |bs| ==> !Overlaps(bs[a], bs[b])) ==> r == bs
    ensures ValidPairs(bs, visited) && r == ApplyPairs(bs, visited, exchange)
  {
    var n := |bs|;
    PassStart(bs, exchange);
    r, visited := bs, [];
    var i := 0;
    while i < n
      invariant 0 <= i <= n && PassState(bs, r, visited, i, exchange)
    {
      r, visited := CollideRow(bs, r, visited, i, exchange);
      i := i + 1;
    }
    PassDone(bs, r, visited, i, exchange);
  }

  /** Every ball advanced by one tick of motion, each on its own. */
  function UpdateAll(w: World, bs: seq<Ball>): (r: seq<Ball>)
    ensures |r| == |bs|
    ensures forall k :: 0 <= k < |bs| ==> r[k] == Update(w, bs[k])
  {
    seq(|bs|, k requires 0 <= k < |bs| => Update(w, bs[k]))
  }

  /**
   One tick of the main loop: every ball moves (in list order, each on its
   own), then the collision pass runs on the moved balls. Each hit count
   grows by the number of balls the moved ball overlaps, positions are the
   moved ones, and a ball that overlaps none keeps its moved velocity. The
   population is unchanged, every ball that fits between the walls ends
   inside them, and hit counts never decrease. The result is the moved balls
   with every pair `i < j` examined once, in increasing order, by `exchange`.
   */
  method Tick(w: World, bs: seq<Ball>, exchange: (Ball, Ball) -> (Vec2, Vec2)) returns (r: seq<Ball>)
    ensures var m := UpdateAll(w, bs);
            && SameBodies(m, r)
            && (forall k :: 0 <= k < |bs| ==> r[k].hitCount == bs[k].hitCount + Hits(m, k, 0, |bs|))
            && (forall k :: 0 <= k < |bs| && Hits(m, k, 0, |bs|) == 0 ==> r[k].vel == m[k].vel)
    ensures |r| == |bs|
    ensures forall k :: 0 <= k < |bs| ==> r[k].radius == bs[k].radius && r[k].color == bs[k].color
    ensures forall k :: 0 <= k < |bs| && Fits(w, bs[k].radius) ==> InBounds(w, r[k])
    ensures forall k :: 0 <= k < |bs| ==> r[k].hitCount >= bs[k].hitCount
    ensures exists ps: seq<(int, int)> ::
              && ValidPairs(UpdateAll(w, bs), ps)
              && (forall p :: p in ps <==> 0 <= p.0 < p.1 < |bs|)
              && (forall a, b :: 0 <= a < b < |ps| ==> PairBefore(ps[a], ps[b]))
              && r == ApplyPairs(UpdateAll(w, bs), ps, exchange)
  {
    var moved := UpdateAll(w, bs);
    var pairs;
    r, pairs := HandleCollisions(moved, exchange);
    forall k | 0 <= k < |bs|
      ensures r[k].radius == bs[k].radius && r[k].color == bs[k].color
      ensures r[k].hitCount >= bs[k].hitCount
      ensures Fits(w, bs[k].radius) ==> InBounds(w, r[k])
    {
      var u := Update(w, bs[k]);
      assert moved[k] == u;
      assert r[k].pos == u.pos && r[k].radius == u.radius;
    }
    assert ValidPairs(moved, pairs) && r == ApplyPairs(moved, pairs, exchange);
  }
}

=== FILE: ball_physics.dfy ===
/**
 Kinematics of one ball in the bouncing-ball simulation: the per-tick
 integrator and the wall handling with restitution and floor settling.

 Python floats are modelled as `real`; the arena size, gravity, elasticity
 and friction, which the program keeps in module globals, are a `World`.
 */
module BallPhysics {

  datatype Vec2 = Vec2(x: real, y: real)

  /** Display colour; it plays no part in the physics. */
  datatype Color = Rgb(r: int, g: int, b: int)

  datatype Ball = Ball(pos: Vec2, vel: Vec2, radius: real, color: Color, hitCount: nat)

  /** Arena size (pixels) and the physics constants. */
  datatype World = World(width: int, height: int, gravity: real, elasticity: real, friction: real)

  /** The program's arena: 800 by 600, gravity 0.5, elasticity 0.95, friction 0.01. */
  const Arena: World := World(800, 600, 0.5, 0.95, 0.01)

  /** Below this vertical speed a ball reaching the floor stops instead of bouncing. */
  const SettleSpeed: real := 0.1

  /** Absolute value, Python's `abs` on a float. */
  function Abs(v: real): real {
    if v < 0.0 then -v else v
  }

  /** `v` limited to `[lo, hi]`. */
  function Clamp(v: real, lo: real, hi: real): real {
    if v > hi then hi else if v < lo then lo else v
  }

  /** The ball lies inside the arena on the x axis. */
  predicate InsideX(w: World, b: Ball) {
    b.radius <= b.pos.x <= w.width as real - b.radius
  }

  /** The ball lies inside the arena on the y axis. */
  predicate InsideY(w: World, b: Ball) {
    b.radius <= b.pos.y <= w.height as real - b.radius
  }

  predicate InBounds(w: World, b: Ball) {
    InsideX(w, b) && InsideY(w, b)
  }

  /** A ball of this radius fits between opposite walls. */
  predicate Fits(w: World, radius: real) {
    2.0 * radius <= w.width as real && 2.0 * radius <= w.height as real
  }

  /** A new ball: the given position, velocity, radius and colour, and no hits yet. */
  function NewBall(x: real, y: real, radius: real, color: Color, vx: real, vy: real): (b: Ball)
    ensures b.hitCount == 0
    ensures b.pos == Vec2(x, y) && b.vel == Vec2(vx, vy)
    ensures b.radius == radius && b.color == color
  {
    Ball(Vec2(x, y), Vec2(vx, vy), radius, color, 0)
  }

  /** Wall handling on x: position and velocity after the left and right walls. */
  function WallsX(w: World, b: Ball): (r: (real, real))
    ensures 2.0 * b.radius <= w.width as real ==>
              b.radius <= r.0 <= w.width as real - b.radius
              && r.0 == Clamp(b.pos.x, b.radius, w.width as real - b.radius)
    ensures InsideX(w, b) ==> r == (b.pos.x, b.vel.x)
    ensures !InsideX(w, b) ==> r.1 == -b.vel.x * w.elasticity
    ensures 0.0 <= w.elasticity <= 1.0 ==> Abs(r.1) <= Abs(b.vel.x)
  {
    ReflectionSlows(b.vel.x, w.elasticity);
    if b.pos.x - b.radius < 0.0 then (b.radius, -b.vel.x * w.elasticity)
    else if b.pos.x + b.radius > w.width as real then (w.width as real - b.radius, -b.vel.x * w.elasticity)
    else (b.pos.x, b.vel.x)
  }

  /** Wall handling on y: position and velocity after the ceiling and the floor. */
  function WallsY(w: World, b: Ball): (r: (real, real))
    ensures 2.0 * b.radius <= w.height as real ==>
              b.radius <= r.0 <= w.height as real - b.radius
              && r.0 == Clamp(b.pos.y, b.radius, w.height as real - b.radius)
    ensures InsideY(w, b) ==> r == (b.pos.y, b.vel.y)
    ensures b.pos.y < b.radius ==> r == (b.radius, -b.vel.y * w.elasticity)
    ensures b.radius <= b.pos.y && b.pos.y > w.height as real - b.radius ==>
              r.0 == w.height as real - b.radius
              && (Abs(b.vel.y) < SettleSpeed ==> r.1 == 0.0)
              && (Abs(b.vel.y) >= SettleSpeed ==> r.1 == -b.vel.y * w.elasticity)
    ensures 0.0 <= w.elasticity <= 1.0 ==> Abs(r.1) <= Abs(b.vel.y)
  {
    ReflectionSlows(b.vel.y, w.elasticity);
    if b.pos.y - b.radius < 0.0 then (b.radius, -b.vel.y * w.elasticity)
    else if b.pos.y + b.radius > w.height as real then
      (w.height as real - b.radius, if Abs(b.vel.y) < SettleSpeed then 0.0 else -b.vel.y * w.elasticity)
    else (b.pos.y, b.vel.y)
  }

  /**
   Wall handling, axis by axis. On x, a ball overlapping the left wall is put
   against it, otherwise one overlapping the right wall is put against that;
   either way the x velocity is reversed and scaled by the elasticity. On y
   the ceiling does the same; at the floor a ball slower than `SettleSpeed`
   (before reflection) stops, any other is reflected.
   */
  function HandleWalls(w: World, b: Ball): (r: Ball)
    ensures r.radius == b.radius && r.color == b.color && r.hitCount == b.hitCount
    ensures Fits(w, b.radius) ==> InBounds(w, r)
    ensures Fits(w, b.radius) ==>
              r.pos.x == Clamp(b.pos.x, b.radius, w.width as real - b.radius)
              && r.pos.y == Clamp(b.pos.y, b.radius, w.height as real - b.radius)
    ensures InsideX(w, b) ==> r.pos.x == b.pos.x && r.vel.x == b.vel.x
    ensures !InsideX(w, b) ==> r.vel.x == -b.vel.x * w.elasticity
    ensures InsideY(w, b) ==> r.pos.y == b.pos.y && r.vel.y == b.vel.y
    ensures b.pos.y < b.radius ==> r.pos.y == b.radius && r.vel.y == -b.vel.y * w.elasticity
    ensures b.radius <= b.pos.y && b.pos.y > w.height as real - b.radius ==>
              r.pos.y == w.height as real - b.radius
              && (Abs(b.vel.y) < SettleSpeed ==> r.vel.y == 0.0)
              && (Abs(b.vel.y) >= SettleSpeed ==> r.vel.y == -b.vel.y * w.elasticity)
    ensures 0.0 <= w.elasticity <= 1.0 ==>
              Abs(r.vel.x) <= Abs(b.vel.x) && Abs(r.vel.y) <= Abs(b.vel.y)
  {
    var (x, vx) := WallsX(w, b);
    var (y, vy) := WallsY(w, b);
    b.(pos := Vec2(x, y), vel := Vec2(vx, vy))
  }

  /** Reflection with an elasticity in `[0, 1]` never speeds a ball up. */
  lemma ReflectionSlows(v: real, e: real)
    ensures 0.0 <= e <= 1.0 ==> Abs(-v * e) <= Abs(v)
  {
    if 0.0 <= e <= 1.0 {
      if v < 0.0 {
        assert -v * e <= -v;
      } else {
        assert v * e <= v;
      }
    }
  }

  /** Once a ball fits and has been handled, handling it again changes nothing. */
  lemma HandleWallsIdempotent(w: World, b: Ball)
    requires Fits(w, b.radius)
    ensures HandleWalls(w, HandleWalls(w, b)) == HandleWalls(w, b)
  {
  }

  /**
   A ball exactly touching the left or the right wall is not reflected in that
   pass, whatever its velocity: the overlap test is strict, so a reflection
   happens only on a later tick, after the ball has moved past the wall.
   */
  lemma TouchingWallIsNotReflected(w: World, b: Ball)
    requires Fits(w, b.radius)
    requires b.pos.x == b.radius || b.pos.x == w.width as real - b.radius
    ensures HandleWalls(w, b).pos.x == b.pos.x
    ensures HandleWalls(w, b).vel.x == b.vel.x
  {
  }

  /** The motion part of a tick: move by the old velocity, add gravity, damp by `1 - friction`. */
  function Moved(w: World, b: Ball): Ball {
    var damping := 1.0 - w.friction;
    var moved := b.(pos := Vec2(b.pos.x + b.vel.x, b.pos.y + b.vel.y));
    var fallen := moved.(vel := Vec2(moved.vel.x, moved.vel.y + w.gravity));
    fallen.(vel := Vec2(fallen.vel.x * damping, fallen.vel.y * damping))
  }

  /**
   One tick of motion: move by the old velocity, add gravity to the vertical
   velocity, damp both components by `1 - friction`, then handle the walls.
   */
  function Update(w: World, b: Ball): (r: Ball)
    ensures r.radius == b.radius && r.color == b.color && r.hitCount == b.hitCount
    ensures Fits(w, b.radius) ==> InBounds(w, r)
  {
    HandleWalls(w, Moved(w, b))
  }

  /**
   Away from the walls a tick is pure kinematics, in the program's order: the
   position advances by the velocity from before the tick, and gravity is
   added to the vertical velocity before damping is applied.
   */
  lemma UpdateAwayFromWalls(w: World, b: Ball)
    requires b.radius <= b.pos.x + b.vel.x <= w.width as real - b.radius
    requires b.radius <= b.pos.y + b.vel.y <= w.height as real - b.radius
    ensures Update(w, b).pos == Vec2(b.pos.x + b.vel.x, b.pos.y + b.vel.y)
    ensures Update(w, b).vel
            == Vec2(b.vel.x * (1.0 - w.friction), (b.vel.y + w.gravity) * (1.0 - w.friction))
  {
  }

  /** A tick of a ball that fits ends at the moved position clamped to the arena. */
  lemma UpdateClampsMove(w: World, b: Ball)
    requires Fits(w, b.radius)
    ensures Update(w, b).pos.x == Clamp(b.pos.x + b.vel.x, b.radius, w.width as real - b.radius)
    ensures Update(w, b).pos.y == Clamp(b.pos.y + b.vel.y, b.radius, w.height as real - b.radius)
  {
    var m := Moved(w, b);
    assert m.pos == Vec2(b.pos.x + b.vel.x, b.pos.y + b.vel.y) && m.radius == b.radius;
    assert m.vel == Vec2(b.vel.x * (1.0 - w.friction), (b.vel.y + w.gravity) * (1.0 - w.friction));
  }

  /** On x, the walls act on the moved position and reflect the damped velocity. */
  lemma UpdateWallsX(w: World, b: Ball)
    ensures var mx, vx := b.pos.x + b.vel.x, b.vel.x * (1.0 - w.friction);
            && (b.radius <= mx <= w.width as real - b.radius ==> Update(w, b).vel.x == vx)
            && (!(b.radius <= mx <= w.width as real - b.radius) ==> Update(w, b).vel.x == -vx * w.elasticity)
  {
    var m := Moved(w, b);
    assert m.pos == Vec2(b.pos.x + b.vel.x, b.pos.y + b.vel.y) && m.radius == b.radius;
    assert m.vel == Vec2(b.vel.x * (1.0 - w.friction), (b.vel.y + w.gravity) * (1.0 - w.friction));
  }

  /** On y, the ceiling reflects and the floor settles or reflects the damped velocity. */
  lemma UpdateWallsY(w: World, b: Ball)
    ensures var my, vy := b.pos.y + b.vel.y, (b.vel.y + w.gravity) * (1.0 - w.friction);
            && (b.radius <= my <= w.height as real - b.radius ==> Update(w, b).vel.y == vy)
            && (my < b.radius ==> Update(w, b).vel.y == -vy * w.elasticity)
            && (b.radius <= my && my > w.height as real - b.radius ==>
                  (Abs(vy) < SettleSpeed ==> Update(w, b).vel.y == 0.0)
                  && (Abs(vy) >= SettleSpeed ==> Update(w, b).vel.y == -vy * w.elasticity))
  {
    var m := Moved(w, b);
    assert m.pos == Vec2(b.pos.x + b.vel.x, b.pos.y + b.vel.y) && m.radius == b.radius;
    assert m.vel == Vec2(b.vel.x * (1.0 - w.friction), (b.vel.y + w.gravity) * (1.0 - w.friction));
  }

  /**
   A tick that reaches a wall: the walls act on the moved position and on the
   velocity after gravity and damping. A ball that fits ends at the moved
   position clamped to the arena; a wall it crosses reflects the damped
   velocity; at the floor the settle test looks at the damped vertical speed.
   */
  lemma UpdateAtWalls(w: World, b: Ball)
    ensures var r := Update(w, b);
            var mx, my := b.pos.x + b.vel.x, b.pos.y + b.vel.y;
            var vx, vy := b.vel.x * (1.0 - w.friction), (b.vel.y + w.gravity) * (1.0 - w.friction);
            && (Fits(w, b.radius) ==>
                  r.pos.x == Clamp(mx, b.radius, w.width as real - b.radius)
                  && r.pos.y == Clamp(my, b.radius, w.height as real - b.radius))
            && (b.radius <= mx <= w.width as real - b.radius ==> r.vel.x == vx)
            && (!(b.radius <= mx <= w.width as real - b.radius) ==> r.vel.x == -vx * w.elasticity)
            && (b.radius <= my <= w.height as real - b.radius ==> r.vel.y == vy)
            && (my < b.radius ==> r.vel.y == -vy * w.elasticity)
            && (b.radius <= my && my > w.height as real - b.radius ==>
                  (Abs(vy) < SettleSpeed ==> r.vel.y == 0.0)
                  && (Abs(vy) >= SettleSpeed ==> r.vel.y == -vy * w.elasticity))
  {
    if Fits(w, b.radius) {
      UpdateClampsMove(w, b);
    }
    UpdateWallsX(w, b);
    UpdateWallsY(w, b);
  }

  /**
   The settle test sees the damped speed. A ball that starts the tick 0.5
   past the floor line (y = 590.5 with the floor line at 590) and moves up at
   0.3995 has vertical speed 0.1005 after gravity, above `SettleSpeed`, but
   0.099495 after damping, below it; so it stops on the floor, where testing
   before damping would have bounced it. No tick leaves a ball past the floor
   line, so only such a start state reaches the settle branch
   (`NoSettleFromInside`).
   */
  lemma SettleTestSeesDampedSpeed(c: Color)
    ensures var b := Ball(Vec2(400.0, 590.5), Vec2(0.0, -0.3995), 10.0, c, 0);
            Abs(b.vel.y + Arena.gravity) >= SettleSpeed
            && Update(Arena, b).vel.y == 0.0
            && Update(Arena, b).pos.y == 590.0
  {
  }

  /**
   With the program's constants, a ball that starts a tick inside the arena
   never stops on the floor: to cross the floor line it must move down, and
   its damped vertical speed is then above 0.495, far over `SettleSpeed`, so
   it is reflected. The settle branch is reached only from a start state past
   the floor line.
   */
  lemma NoSettleFromInside(b: Ball)
    requires InBounds(Arena, b)
    requires b.pos.y + b.vel.y > Arena.height as real - b.radius
    ensures Update(Arena, b).vel.y != 0.0
    ensures Update(Arena, b).vel.y < -0.47
    ensures Update(Arena, b).vel.y == -((b.vel.y + Arena.gravity) * (1.0 - Arena.friction)) * Arena.elasticity
  {
    UpdateWallsY(Arena, b);
  }

  /**
   With the program's constants a ball resting in mid-air picks up
   `0.5 * 0.99` of vertical speed in one tick, not `0.5`: damping applies to
   the gravity just added.
   */
  lemma RestingBallFalls(b: Ball)
    requires b.vel == Vec2(0.0, 0.0)
    requires InBounds(Arena, b) && b.pos.y < Arena.height as real - b.radius
    ensures Update(Arena, b).vel == Vec2(0.0, 0.495)
  {
  }
}

=== FILE: ball_spawn.dfy ===
/**
 Creation of the initial balls. The random draws are inputs: `draw(i)` holds
 the values the random generator produced for ball `i`, within the ranges
 the program asks for.
 */
module BallSpawn {
  import opened BallPhysics

  /** The random values drawn for one ball. */
  datatype Draw = Draw(x: int, y: int, radius: int, color: Color, vx: real, vy: real)

  /**
   The ranges the program draws from: integer position in
   `[50, width - 50] x [50, height - 50]`, integer radius in `[5, 15]`,
   colour components in `[0, 255]`, velocity components in `[-5, 5]`.
   */
  predicate ValidDraw(w: World, d: Draw) {
    && 50 <= d.x <= w.width - 50
    && 50 <= d.y <= w.height - 50
    && 5 <= d.radius <= 15
    && 0 <= d.color.r <= 255 && 0 <= d.color.g <= 255 && 0 <= d.color.b <= 255
    && -5.0 <= d.vx <= 5.0 && -5.0 <= d.vy <= 5.0
  }

  /** A real number with no fractional part. */
  predicate IsWhole(v: real) {
    v.Floor as real == v
  }

  /**
   What the program guarantees of a new ball: no hits yet, a whole-number
   position in `[50, width - 50] x [50, height - 50]`, a whole-number radius
   in `[5, 15]` and each velocity component in `[-5, 5]`.
   */
  predicate Fresh(w: World, b: Ball) {
    && b.hitCount == 0
    && IsWhole(b.pos.x) && IsWhole(b.pos.y) && IsWhole(b.radius)
    && 50.0 <= b.pos.x <= w.width as real - 50.0
    && 50.0 <= b.pos.y <= w.height as real - 50.0
    && 5.0 <= b.radius <= 15.0
    && -5.0 <= b.vel.x <= 5.0 && -5.0 <= b.vel.y <= 5.0
  }

  /** The ball built from one draw. */
  function Spawn(w: World, d: Draw): (b: Ball)
    requires ValidDraw(w, d)
    ensures Fresh(w, b)
    ensures b.color == d.color
  {
    assert (d.x as real).Floor == d.x && (d.y as real).Floor == d.y;
    assert (d.radius as real).Floor == d.radius;
    NewBall(d.x as real, d.y as real, d.radius as real, d.color, d.vx, d.vy)
  }

  /** `n` new balls, ball `i` built from `draw(i)`, each fresh. */
  function CreateBalls(w: World, n: nat, draw: nat -> Draw): (r: seq<Ball>)
    requires forall i :: 0 <= i < n ==> ValidDraw(w, draw(i))
    ensures |r| == n
    ensures forall i :: 0 <= i < n ==> r[i] == Spawn(w, draw(i))
    ensures forall i :: 0 <= i < n ==> Fresh(w, r[i]) && r[i].color == draw(i).color
  {
    if n == 0 then [] else CreateBalls(w, n - 1, draw) + [Spawn(w, draw(n - 1))]
  }

  /**
   Every created ball already fits between the walls and lies inside them,
   so the wall handling leaves a newly created ball where it is.
   */
  lemma CreatedBallsInBounds(w: World, n: nat, draw: nat -> Draw)
    requires forall i :: 0 <= i < n ==> ValidDraw(w, draw(i))
    ensures forall i :: 0 <= i < n ==>
              Fits(w, CreateBalls(w, n, draw)[i].radius) && InBounds(w, CreateBalls(w, n, draw)[i])
    ensures forall i :: 0 <= i < n ==>
              HandleWalls(w, CreateBalls(w, n, draw)[i]) == CreateBalls(w, n, draw)[i]
  {
  }
}

=== FILE: life_control.dfy ===
/**
 Interaction around the Game of Life step: painting a cell with the mouse
 and the pause / single-step controls of the frame loop.

 Event polling, drawing and frame pacing are left to the caller; a frame is
 given the key events of that frame, the mouse button state and the pointer
 position in pixels.
 */
module LifeControl {
  import opened LifeGrid
  import opened LifeStep

  /** Either a value, or the index error the program would raise. */
  datatype Result<T> = Ok(value: T) | IndexError

  /** Mouse buttons as reported for one frame: left (button 0) and right (button 2). */
  datatype Buttons = Buttons(left: bool, right: bool)

  /** Events of one frame; `OtherKey` and `Other` are ignored by the program. */
  datatype Event = Quit | KeySpace | KeyS | OtherKey | Other

  /** The simulation's mutable state: the board, the pause flag and the loop flag. */
  datatype Life = Life(cells: Grid, paused: bool, running: bool)

  /** Pixel `p` lies on the strip of the cell with index `i`. */
  predicate OnCell(p: nat, i: nat, cellSize: nat) {
    i * cellSize <= p < i * cellSize + cellSize
  }

  /** Multiplication by a natural number is monotone. */
  lemma MulMonotone(a: int, b: int, c: nat)
    requires a <= b
    ensures a * c <= b * c
  {
    var d := b - a;
    assert b * c == a * c + d * c;
  }

  /** Integer division picks the one cell whose strip holds the pixel. */
  lemma DivIsCell(p: nat, i: nat, cellSize: nat)
    requires cellSize > 0
    ensures OnCell(p, i, cellSize) <==> i == p / cellSize
  {
    var q := p / cellSize;
    assert q * cellSize <= p < q * cellSize + cellSize;
    if i < q {
      MulMonotone(i + 1, q, cellSize);
      assert (i + 1) * cellSize == i * cellSize + cellSize;
    } else if i > q {
      MulMonotone(q + 1, i, cellSize);
      assert (q + 1) * cellSize == q * cellSize + cellSize;
    }
  }

  /** A pixel lies on the board exactly when its cell index is in range. */
  lemma DivInRange(p: nat, n: nat, cellSize: nat)
    requires cellSize > 0
    ensures p / cellSize < n <==> p < n * cellSize
  {
    var q := p / cellSize;
    assert q * cellSize <= p < q * cellSize + cellSize;
    if q < n {
      MulMonotone(q + 1, n, cellSize);
      assert (q + 1) * cellSize == q * cellSize + cellSize;
    } else {
      MulMonotone(n, q, cellSize);
    }
  }

  /** Every strip index below `n` holds pixel `p` exactly when it is `p / cellSize`. */
  lemma StripOfPixel(p: nat, n: nat, cellSize: nat)
    requires cellSize > 0
    ensures forall i :: 0 <= i < n ==> (OnCell(p, i, cellSize) <==> i == p / cellSize)
  {
    forall i | 0 <= i < n
      ensures OnCell(p, i, cellSize) <==> i == p / cellSize
    {
      DivIsCell(p, i, cellSize);
    }
  }

  /** The board with cell `(x, y)` set to `v`. */
  function SetCell(g: Grid, x: nat, y: nat, v: int): (r: Grid)
    requires IsGrid(g) && x < Width(g) && y < Height(g)
    ensures IsGrid(r) && SameShape(g, r)
    ensures forall i, j :: 0 <= i < Width(g) && 0 <= j < Height(g) ==>
              r[i][j] == (if i == x && j == y then v else g[i][j])
  {
    g[x := g[x][y := v]]
  }

  /**
   The mouse painting rule: with the left button held the cell under the
   pointer becomes 1, otherwise with the right button held it becomes 0;
   no other cell changes. A pointer beyond the board is an index error.
   */
  function Paint(g: Grid, b: Buttons, px: nat, py: nat, cellSize: nat): (r: Result<Grid>)
    requires IsGrid(g) && cellSize > 0
    ensures !b.left && !b.right ==> r == Ok(g)
    ensures (b.left || b.right) ==>
              (r.Ok? <==> px < Width(g) * cellSize && py < Height(g) * cellSize)
    ensures r.Ok? ==> IsGrid(r.value) && SameShape(g, r.value)
    ensures r.Ok? && (b.left || b.right) ==>
              forall i, j :: 0 <= i < Width(g) && 0 <= j < Height(g) ==>
                r.value[i][j] == (if OnCell(px, i, cellSize) && OnCell(py, j, cellSize)
                                  then (if b.left then 1 else 0)
                                  else g[i][j])
  {
    if !b.left && !b.right then
      Ok(g)
    else
      var x, y := px / cellSize, py / cellSize;
      DivInRange(px, Width(g), cellSize);
      DivInRange(py, Height(g), cellSize);
      if x < Width(g) && y < Height(g) then
        StripOfPixel(px, Width(g), cellSize);
        StripOfPixel(py, Height(g), cellSize);
        Ok(SetCell(g, x, y, if b.left then 1 else 0))
      else
        IndexError
  }

  /** Painting twice with the same input is the same as painting once. */
  lemma PaintIdempotent(g: Grid, b: Buttons, px: nat, py: nat, cellSize: nat)
    requires IsGrid(g) && cellSize > 0
    requires Paint(g, b, px, py, cellSize).Ok?
    ensures Paint(Paint(g, b, px, py, cellSize).value, b, px, py, cellSize)
            == Paint(g, b, px, py, cellSize)
  {
    var r := Paint(g, b, px, py, cellSize).value;
    var r2 := Paint(r, b, px, py, cellSize);
    if b.left || b.right {
      assert Width(r) == Width(g) && Height(r) == Height(g);
      assert r2.Ok?;
      forall i | 0 <= i < Width(g)
        ensures r2.value[i] == r[i]
      {
        assert |r2.value[i]| == |r[i]| == Height(g);
        forall j | 0 <= j < Height(g)
          ensures r2.value[i][j] == r[i][j]
        {
        }
      }
      assert r2.value == r;
    }
  }

  /**
   One key or window event: quit clears the loop flag, space toggles the
   pause flag, `s` performs one step only while paused; anything else is
   ignored.
   */
  function HandleEvent(s: Life, e: Event): (r: Life)
    requires IsGrid(s.cells)
    ensures IsGrid(r.cells)
    ensures r.paused != s.paused <==> e == KeySpace
    ensures r.running != s.running <==> e == Quit && s.running
    ensures r.cells == (if e == KeyS && s.paused then Step(s.cells) else s.cells)
  {
    match e
    case Quit => s.(running := false)
    case KeySpace => s.(paused := !s.paused)
    case KeyS => if s.paused then s.(cells := Step(s.cells)) else s
    case _ => s
  }

  /** The events of one frame, handled in order. */
  function HandleEvents(s: Life, es: seq<Event>): (r: Life)
    requires IsGrid(s.cells)
    ensures IsGrid(r.cells)
    decreases |es|
  {
    if |es| == 0 then s else HandleEvents(HandleEvent(s, es[0]), es[1..])
  }

  /** `k` successive generations. */
  function StepN(g: Grid, k: nat): (r: Grid)
    requires IsGrid(g)
    ensures IsGrid(r)
    decreases k
  {
    if k == 0 then g else StepN(Step(g), k - 1)
  }

  /** Successive generations keep the board's width and height. */
  lemma {:induction false} StepNKeepsShape(g: Grid, k: nat)
    requires IsGrid(g)
    ensures Width(StepN(g, k)) == Width(g) && Height(StepN(g, k)) == Height(g)
    decreases k
  {
    if k > 0 {
      StepNKeepsShape(Step(g), k - 1);
    }
  }

  /** Number of space presses among the events. */
  function Spaces(es: seq<Event>): nat {
    if |es| == 0 then 0 else (if es[0] == KeySpace then 1 else 0) + Spaces(es[1..])
  }

  /** Number of `s` presses that arrive while the game is paused, starting from `paused`. */
  function PausedSteps(paused: bool, es: seq<Event>): nat
    decreases |es|
  {
    if |es| == 0 then 0
    else (if es[0] == KeyS && paused then 1 else 0)
         + PausedSteps(if es[0] == KeySpace then !paused else paused, es[1..])
  }

  /** Over a frame's events the board advances once per `s` press made while paused. */
  lemma {:induction false} EventsStepBoard(s: Life, es: seq<Event>)
    requires IsGrid(s.cells)
    ensures HandleEvents(s, es).cells == StepN(s.cells, PausedSteps(s.paused, es))
    decreases |es|
  {
    if |es| > 0 {
      var s1 := HandleEvent(s, es[0]);
      EventsStepBoard(s1, es[1..]);
      assert HandleEvents(s, es) == HandleEvents(s1, es[1..]);
      var k := PausedSteps(s1.paused, es[1..]);
      if es[0] == KeyS && s.paused {
        assert s1.cells == Step(s.cells);
        assert PausedSteps(s.paused, es) == k + 1;
        assert StepN(s.cells, k + 1) == StepN(Step(s.cells), k);
      } else {
        assert s1.cells == s.cells;
        assert PausedSteps(s.paused, es) == k;
      }
    }
  }

  /** Over a frame's events the pause flag flips once per space press. */
  lemma {:induction false} EventsFlipPause(s: Life, es: seq<Event>)
    requires IsGrid(s.cells)
    ensures HandleEvents(s, es).paused == (s.paused != (Spaces(es) % 2 == 1))
    decreases |es|
  {
    if |es| > 0 {
      var s1 := HandleEvent(s, es[0]);
      EventsFlipPause(s1, es[1..]);
      assert HandleEvents(s, es) == HandleEvents(s1, es[1..]);
      var k := Spaces(es[1..]);
      if es[0] == KeySpace {
        assert Spaces(es) == k + 1;
        assert (k + 1) % 2 == 1 <==> k % 2 == 0;
      } else {
        assert Spaces(es) == k;
      }
    }
  }

  /** Over a frame's events the loop flag is cleared exactly when a quit event occurs. */
  lemma {:induction false} EventsQuit(s: Life, es: seq<Event>)
    requires IsGrid(s.cells)
    ensures HandleEvents(s, es).running == (s.running && Quit !in es)
    decreases |es|
  {
    if |es| > 0 {
      var s1 := HandleEvent(s, es[0]);
      EventsQuit(s1, es[1..]);
      assert HandleEvents(s, es) == HandleEvents(s1, es[1..]);
      assert es == [es[0]] + es[1..];
    }
  }

  /**
   Over a frame's events the board advances by exactly one generation per
   `s` press made while paused, the pause flag flips once per space press,
   and the loop flag is cleared exactly when a quit event occurs.
   */
  lemma HandleEventsSummary(s: Life, es: seq<Event>)
    requires IsGrid(s.cells)
    ensures HandleEvents(s, es).cells == StepN(s.cells, PausedSteps(s.paused, es))
    ensures HandleEvents(s, es).paused == (s.paused != (Spaces(es) % 2 == 1))
    ensures HandleEvents(s, es).running == (s.running && Quit !in es)
  {
    EventsStepBoard(s, es);
    EventsFlipPause(s, es);
    EventsQuit(s, es);
  }

  /**
   One frame of the main loop: handle the events, paint with the mouse, then
   advance one generation unless paused. Drawing and pacing are left out.
   The frame fails only when a button is held with the pointer off the board.
   */
  function Frame(s: Life, es: seq<Event>, b: Buttons, px: nat, py: nat, cellSize: nat): (r: Result<Life>)
    requires IsGrid(s.cells) && cellSize > 0
    ensures r.Ok? <==> (!b.left && !b.right)
                       || (px < Width(s.cells) * cellSize && py < Height(s.cells) * cellSize)
    ensures r.Ok? ==> IsGrid(r.value.cells)
                      && Width(r.value.cells) == Width(s.cells) && Height(r.value.cells) == Height(s.cells)
  {
    var s1 := HandleEvents(s, es);
    EventsStepBoard(s, es);
    StepNKeepsShape(s.cells, PausedSteps(s.paused, es));
    match Paint(s1.cells, b, px, py, cellSize)
    case IndexError => IndexError
    case Ok(painted) =>
      Ok(s1.(cells := if s1.paused then painted else Step(painted)))
  }

  /**
   A whole frame in terms of its input: the flags are those the events leave
   (the pause flag flipped once per space press, the loop flag cleared by a
   quit), the board is first advanced once per `s` press made while paused,
   then painted, and then advanced one more generation exactly when the pause
   flag the events left is clear.
   */
  lemma FrameSummary(s: Life, es: seq<Event>, b: Buttons, px: nat, py: nat, cellSize: nat)
    requires IsGrid(s.cells) && cellSize > 0
    ensures var r := Frame(s, es, b, px, py, cellSize);
            var p := Paint(StepN(s.cells, PausedSteps(s.paused, es)), b, px, py, cellSize);
            var paused := s.paused != (Spaces(es) % 2 == 1);
            (r.Ok? <==> p.Ok?)
            && (r.Ok? ==>
                  r.value.paused == paused
                  && r.value.running == (s.running && Quit !in es)
                  && r.value.cells == (if paused then p.value else Step(p.value)))
  {
    HandleEventsSummary(s, es);
  }

  /**
   Without mouse buttons and key events, a frame advances the board by one
   generation exactly when the game is not paused, and changes nothing else.
   */
  lemma FrameAutoStep(s: Life, px: nat, py: nat, cellSize: nat)
    requires IsGrid(s.cells) && cellSize > 0
    ensures Frame(s, [], Buttons(false, false), px, py, cellSize).Ok?
    ensures var r := Frame(s, [], Buttons(false, false), px, py, cellSize).value;
            r.paused == s.paused && r.running == s.running
            && r.cells == (if s.paused then s.cells else Step(s.cells))
  {
  }

  /** Pressing space twice leaves the game as it was. */
  lemma SpaceTwiceIsIdentity(s: Life)
    requires IsGrid(s.cells)
    ensures HandleEvents(s, [KeySpace, KeySpace]) == s
  {
    assert [KeySpace, KeySpace][1..] == [KeySpace];
    assert [KeySpace][1..] == [];
  }
}

=== FILE: life_grid.dfy ===
/**
 The Game of Life board and its neighbour count.

 The board is a width-major grid `g[x][y]` of integers (the program stores
 0 for a dead cell and 1 for a live one). The neighbour count of a cell is
 computed the way the program computes it: the sum of the block of cells
 whose indices are clamped to the board on each axis, minus the cell itself.
 `Neighbours8` is an independent reference definition over the eight
 surrounding cells, where a cell outside the board is simply absent.
 */
module LifeGrid {

  type Grid = seq<seq<int>>

  /** Number of columns of the board (first index). */
  function Width(g: Grid): nat {
    |g|
  }

  /** Number of rows of the board (second index); an empty board has none. */
  function Height(g: Grid): nat {
    if |g| == 0 then 0 else |g[0]|
  }

  /** Every column has the same length. */
  predicate IsGrid(g: Grid) {
    forall x :: 0 <= x < |g| ==> |g[x]| == Height(g)
  }

  /** Every cell holds 0 or 1. */
  predicate IsBinary(g: Grid) {
    forall x, y :: 0 <= x < |g| && 0 <= y < |g[x]| ==> g[x][y] == 0 || g[x][y] == 1
  }

  /** Two grids have the same shape. */
  predicate SameShape(a: Grid, b: Grid) {
    |a| == |b| && forall x :: 0 <= x < |a| ==> |a[x]| == |b[x]|
  }

  /** The all-dead board of the given size. */
  function Dead(w: nat, h: nat): (g: Grid)
    ensures IsGrid(g) && IsBinary(g)
    ensures Width(g) == w && (w > 0 ==> Height(g) == h)
    ensures forall x, y :: 0 <= x < w && 0 <= y < h ==> g[x][y] == 0
  {
    seq(w, _ => seq(h, _ => 0))
  }

  /** Sum of a sequence of integers (numpy's `sum` on a slice). */
  function Sum(s: seq<int>): int {
    if |s| == 0 then 0 else Sum(s[..|s| - 1]) + s[|s| - 1]
  }

  /** Value of `s[i]`, or 0 when `i` lies outside `s`. */
  function At(s: seq<int>, i: int): int {
    if 0 <= i < |s| then s[i] else 0
  }

  /** Value of cell `(x, y)`, or 0 (absent) when it lies outside the board. */
  function Cell(g: Grid, x: int, y: int): int {
    if 0 <= x < |g| && 0 <= y < |g[x]| then g[x][y] else 0
  }

  /** Lower end of the clamped window around `k`: `max(k - 1, 0)`. */
  function Lo(k: int): int {
    if k - 1 < 0 then 0 else k - 1
  }

  /** Upper end (exclusive) of the clamped window around `k`: `min(k + 2, n)`. */
  function Hi(k: int, n: int): int {
    if k + 2 < n then k + 2 else n
  }

  /** Sum of each column `x` restricted to rows `[y0, y1)`. */
  function ColumnSums(g: Grid, y0: int, y1: int): (r: seq<int>)
    requires IsGrid(g)
    requires 0 <= y0 <= y1 <= Height(g)
    ensures |r| == |g|
  {
    seq(|g|, x requires 0 <= x < |g| => Sum(g[x][y0..y1]))
  }

  /**
   The program's neighbour count: the sum of the block of cells whose indices
   are clamped to `[0, width)` and `[0, height)`, minus the cell itself.
   */
  function NeighbourCount(g: Grid, x: int, y: int): int
    requires IsGrid(g)
    requires 0 <= x < Width(g) && 0 <= y < Height(g)
  {
    Sum(ColumnSums(g, Lo(y), Hi(y, Height(g)))[Lo(x)..Hi(x, Width(g))]) - g[x][y]
  }

  /** Reference count: the eight surrounding cells, absent outside the board. */
  function Neighbours8(g: Grid, x: int, y: int): int {
    Cell(g, x - 1, y - 1) + Cell(g, x, y - 1) + Cell(g, x + 1, y - 1)
    + Cell(g, x - 1, y) + Cell(g, x + 1, y)
    + Cell(g, x - 1, y + 1) + Cell(g, x, y + 1) + Cell(g, x + 1, y + 1)
  }

  /** The clamped window of length one to three sums exactly the in-range neighbours of `k`. */
  lemma WindowSum(s: seq<int>, k: int)
    requires 0 <= k < |s|
    ensures Sum(s[Lo(k)..Hi(k, |s|)]) == At(s, k - 1) + At(s, k) + At(s, k + 1)
  {
    var t := s[Lo(k)..Hi(k, |s|)];
    if k == 0 && |s| == 1 {
      assert t == [s[0]];
      SumOne(t);
    } else if k == 0 {
      assert t == [s[0], s[1]];
      SumTwo(t);
    } else if k + 2 > |s| {
      assert t == [s[k - 1], s[k]];
      SumTwo(t);
    } else {
      assert t == [s[k - 1], s[k], s[k + 1]];
      assert t[..2] == [s[k - 1], s[k]];
      SumTwo(t[..2]);
    }
  }

  /** Sum of a one-element sequence. */
  lemma SumOne(t: seq<int>)
    requires |t| == 1
    ensures Sum(t) == t[0]
  {
    assert t[..0] == [];
  }

  /** Sum of a two-element sequence. */
  lemma SumTwo(t: seq<int>)
    requires |t| == 2
    ensures Sum(t) == t[0] + t[1]
  {
    SumOne(t[..1]);
  }

  /** One entry of the column sums: the three cells of column `i` around row `y`. */
  lemma ColumnWindow(g: Grid, i: int, y: int)
    requires IsGrid(g)
    requires 0 <= y < Height(g)
    ensures At(ColumnSums(g, Lo(y), Hi(y, Height(g))), i)
            == Cell(g, i, y - 1) + Cell(g, i, y) + Cell(g, i, y + 1)
  {
    if 0 <= i < |g| {
      WindowSum(g[i], y);
    }
  }

  /** The program's clamped-block count equals the eight-neighbour reference count. */
  lemma NeighbourCountIsMoore(g: Grid, x: int, y: int)
    requires IsGrid(g)
    requires 0 <= x < Width(g) && 0 <= y < Height(g)
    ensures NeighbourCount(g, x, y) == Neighbours8(g, x, y)
  {
    var cs := ColumnSums(g, Lo(y), Hi(y, Height(g)));
    WindowSum(cs, x);
    ColumnWindow(g, x - 1, y);
    ColumnWindow(g, x, y);
    ColumnWindow(g, x + 1, y);
  }

  /**
   On a 0/1 board the count lies in 0..8; a corner cell has at most 3
   neighbours and an edge cell at most 5, because the board does not wrap.
   */
  lemma NeighbourCountBounds(g: Grid, x: int, y: int)
    requires IsGrid(g) && IsBinary(g)
    requires 0 <= x < Width(g) && 0 <= y < Height(g)
    ensures 0 <= NeighbourCount(g, x, y) <= 8
    ensures (x == 0 || x == Width(g) - 1) && (y == 0 || y == Height(g) - 1)
            ==> NeighbourCount(g, x, y) <= 3
    ensures (x == 0 || x == Width(g) - 1 || y == 0 || y == Height(g) - 1)
            ==> NeighbourCount(g, x, y) <= 5
  {
    NeighbourCountIsMoore(g, x, y);
  }

  /** On an all-dead board every cell has zero live neighbours. */
  lemma NoNeighboursOnDeadBoard(g: Grid, x: int, y: int)
    requires IsGrid(g)
    requires forall i, j :: 0 <= i < |g| && 0 <= j < |g[i]| ==> g[i][j] == 0
    requires 0 <= x < Width(g) && 0 <= y < Height(g)
    ensures NeighbourCount(g, x, y) == 0
  {
    NeighbourCountIsMoore(g, x, y);
  }
}

=== FILE: life_step.dfy ===
/**
 One generation of the Game of Life (rule B3/S23) on a bounded board.

 `Step` is the synchronous update: every new cell is computed from the
 previous generation only. `StepColumnMajor` follows the program's loop
 (columns outer, rows inner, writing into a copy while reading the old
 board); `StepRowMajor` scans in the other order. Both are proved to produce
 `Step`, so the result does not depend on the scan order.
 */
module LifeStep {
  import opened LifeGrid

  /** New value of one cell from its old value and its live-neighbour count. */
  function NextCell(c: int, n: int): int {
    if c == 1 && (n < 2 || n > 3) then 0
    else if c == 0 && n == 3 then 1
    else c
  }

  /** New value of cell `(x, y)` of board `g`. */
  function StepCell(g: Grid, x: int, y: int): int
    requires IsGrid(g) && 0 <= x < Width(g) && 0 <= y < Height(g)
  {
    NextCell(g[x][y], NeighbourCount(g, x, y))
  }

  /** The next generation, computed from the previous one alone. */
  function Step(g: Grid): (r: Grid)
    requires IsGrid(g)
    ensures IsGrid(r) && SameShape(g, r)
    ensures Width(r) == Width(g) && Height(r) == Height(g)
    ensures IsBinary(g) ==> IsBinary(r)
  {
    seq(|g|, x requires 0 <= x < |g| =>
      seq(Height(g), y requires 0 <= y < Height(g) => StepCell(g, x, y)))
  }

  /**
   The rule, stated against the eight-neighbour count: a live cell with fewer
   than 2 or more than 3 live neighbours dies, a dead cell with exactly 3 is
   born, and every other cell keeps its value.
   */
  lemma StepFollowsB3S23(g: Grid, x: int, y: int)
    requires IsGrid(g)
    requires 0 <= x < Width(g) && 0 <= y < Height(g)
    ensures g[x][y] == 1 && (Neighbours8(g, x, y) < 2 || Neighbours8(g, x, y) > 3)
            ==> Step(g)[x][y] == 0
    ensures g[x][y] == 0 && Neighbours8(g, x, y) == 3 ==> Step(g)[x][y] == 1
    ensures g[x][y] == 1 && 2 <= Neighbours8(g, x, y) <= 3 ==> Step(g)[x][y] == 1
    ensures g[x][y] == 0 && Neighbours8(g, x, y) != 3 ==> Step(g)[x][y] == 0
    ensures g[x][y] != 0 && g[x][y] != 1 ==> Step(g)[x][y] == g[x][y]
  {
    NeighbourCountIsMoore(g, x, y);
  }

  /** An all-dead board is a fixed point of the step. */
  lemma DeadBoardIsFixed(w: nat, h: nat)
    ensures Step(Dead(w, h)) == Dead(w, h)
  {
    var g := Dead(w, h);
    var r := Step(g);
    forall x | 0 <= x < w
      ensures r[x] == g[x]
    {
      forall y | 0 <= y < h
        ensures r[x][y] == g[x][y]
      {
        NoNeighboursOnDeadBoard(g, x, y);
      }
    }
  }

  /**
   The program's update loop: columns outer, rows inner, reading the old
   board and writing a copy that replaces it at the end.
   */
  method StepColumnMajor(g: Grid) returns (r: Grid)
    requires IsGrid(g)
    ensures r == Step(g)
  {
    var w, h := Width(g), Height(g);
    var next := g;
    var x := 0;
    while x < w
      invariant 0 <= x <= w
      invariant SameShape(g, next)
      invariant forall i, j :: 0 <= i < x && 0 <= j < h ==> next[i][j] == StepCell(g, i, j)
      invariant forall i, j :: x <= i < w && 0 <= j < h ==> next[i][j] == g[i][j]
    {
      var y := 0;
      while y < h
        invariant 0 <= y <= h
        invariant SameShape(g, next)
        invariant forall i, j :: 0 <= i < x && 0 <= j < h ==> next[i][j] == StepCell(g, i, j)
        invariant forall j :: 0 <= j < y ==> next[x][j] == StepCell(g, x, j)
        invariant forall j :: y <= j < h ==> next[x][j] == g[x][j]
        invariant forall i, j :: x < i < w && 0 <= j < h ==> next[i][j] == g[i][j]
      {
        var n := NeighbourCount(g, x, y);
        if g[x][y] == 1 && (n < 2 || n > 3) {
          next := next[x := next[x][y := 0]];
        } else if g[x][y] == 0 && n == 3 {
          next := next[x := next[x][y := 1]];
        }
        y := y + 1;
      }
      x := x + 1;
    }
    forall i | 0 <= i < w
      ensures next[i] == Step(g)[i]
    {
      assert |next[i]| == h;
    }
    r := next;
  }

  /** The same update scanned rows outer, columns inner. */
  method StepRowMajor(g: Grid) returns (r: Grid)
    requires IsGrid(g)
    ensures r == Step(g)
  {
    var w, h := Width(g), Height(g);
    var next := g;
    var y := 0;
    while y < h
      invariant 0 <= y <= h
      invariant SameShape(g, next)
      invariant forall i, j :: 0 <= i < w && 0 <= j < y ==> next[i][j] == StepCell(g, i, j)
      invariant forall i, j :: 0 <= i < w && y <= j < h ==> next[i][j] == g[i][j]
    {
      var x := 0;
      while x < w
        invariant 0 <= x <= w
        invariant SameShape(g, next)
        invariant forall i, j :: 0 <= i < w && 0 <= j < y ==> next[i][j] == StepCell(g, i, j)
        invariant forall i :: 0 <= i < x ==> next[i][y] == StepCell(g, i, y)
        invariant forall i :: x <= i < w ==> next[i][y] == g[i][y]
        invariant forall i, j :: 0 <= i < w && y < j < h ==> next[i][j] == g[i][j]
      {
        var n := NeighbourCount(g, x, y);
        if g[x][y] == 1 && (n < 2 || n > 3) {
          next := next[x := next[x][y := 0]];
        } else if g[x][y] == 0 && n == 3 {
          next := next[x := next[x][y := 1]];
        }
        x := x + 1;
      }
      y := y + 1;
    }
    forall i | 0 <= i < w
      ensures next[i] == Step(g)[i]
    {
      assert |next[i]| == h;
    }
    r := next;
  }
}
